=== FILE: README.md ===
# 90-day DSA challenge tracker, modelled in Dafny

The site is a single-page app (`app.js`) that walks a learner through a
90-day data-structures-and-algorithms curriculum. Apart from page markup, its
logic is a small progress tracker and a few pure helpers:

- the tracker state: the globals `currentDay`, `completedDays` and
  `currentView`, and the operations that change them. `loadDayContent` opens
  a day, and clamps a bad day number to day 1 with a warning notice.
  `navigateTo` switches the view. The mark-complete handler records the
  current day once. `loadUserProgress` and `saveUserProgress` read and write
  the `dsaMasterProgress` slot of local storage. `renderApp` picks the page
  for the view.
- the day helpers: difficulty band, topic tags, practice problems, the
  previous/next links, the title and description fallbacks, the default
  lecture heading and the lecture filter.

Modules, one per component:

| file | module | models |
|---|---|---|
| `wrappers.dfy` | `Wrappers` | `Option`, `Result` |
| `numbers.dfy` | `Numbers` | `parseInt` without a radix, integer printing in template literals, `Math.round` of the percentage |
| `text.dfy` | `Text` | `toLowerCase`, capitalising the first character, `replace(/-/g, " ")`, `split(" ").pop()` |
| `day_content.dfy` | `DayContent` | the day helpers listed above |
| `progress_store.dfy` | `ProgressStore` | the storage slot: its record, `Load`, `Save` |
| `tracker.dfy` | `Tracker` | the state, its operations, the view dispatch, gestures and their runs |
| `day_grid.dfy` | `DayGrid` | the 90-item day grid and the "N of 90 days completed (P%)" summary |
| `scenarios.dfy` | `Scenarios` | worked examples: fresh store, completing day 5, day 200, marking day 10 twice |

Every operation is a pure function from one `Tracker.State` to the next. The
state holds the three globals, the storage slot, a count of writes to the
slot, and the notices shown. The slot is abstract: it is empty, holds text
that `JSON.parse` rejects, or holds the parsed record, whose two fields may
be absent. Where the code calls `parseInt` on a day that is already a number,
the model prints the number and parses it again, as JavaScript does. It then
proves that this gives the number back (`Tracker.Reparse`), which holds for
every number the page can produce (see `Tracker.Reparse` under "Left out").

Behaviour of the code worth knowing:

- A slot holding malformed text makes `loadUserProgress` throw, because
  `JSON.parse` is not guarded (app.js:27). The model returns
  `Failure(SyntaxError)`, not a silent fallback to the defaults. By then
  `initApp` has already rendered the page and set up the listeners
  (app.js:15-16), so the page keeps running on the initial values; the
  exception only skips `updateUI` and the `applyAnimations` call (app.js:10).
- No operation rejects an out-of-range day with an error. `loadDayContent`
  clamps it to day 1 and shows a warning.
- Loading does not check the stored day against 1..90. Only a missing or zero
  day becomes 1, so `Tracker.Valid` holds only for states that the handlers
  built (`Tracker.RunPreservesValid`), not for every loaded state.
- `completedDays` is a list in completion order, not a set. It has no
  duplicates only because the mark-complete handler checks before it appends.

## Model

| member | source | states |
|---|---|---|
| `Tracker.Init` | app.js:3-5 | A page starts on day 1, with no completed days, on the home view, with nothing written and no notices. |
| `ProgressStore.Load` | app.js:23-33 | With an empty slot, the progress stays as it was. Malformed text throws. A stored record always loads and replaces both fields: a stored day list is taken as it is and a missing one becomes `[]`; a stored non-zero day is taken as it is and a missing or zero day becomes 1. |
| `ProgressStore.DayOrFirst` | app.js:29 | The falsy default `progress.currentDay or 1`: a missing or zero day reads as 1; any other day is kept as it is. The result is never 0. |
| `ProgressStore.Save` | app.js:36-43 | The slot is overwritten. Whatever state a page starts from, loading the slot succeeds and gives back the saved completed days (last write wins, no merge). |
| `ProgressStore.SaveLoadRoundTrip` | app.js:23-43 | Save then load gives back exactly the saved progress if and only if its day is not 0. A day of 0 comes back as 1. |
| `Tracker.SaveUserProgress` | app.js:36-43 | One write. Only the slot changes: it is overwritten, so whatever progress a page starts from (a fresh reload included), loading it gives back exactly the state's progress if and only if the day is not 0. |
| `Tracker.LoadUserProgress` | app.js:23-33 | With an empty slot, nothing changes. A malformed slot is a failure. A slot holding a record always loads, and the state's day and completed days become exactly what `Load` reads from it (a missing day list becomes empty, the day is never 0). Nothing but the day and the completed days changes: not the view, the slot, the write count or the notices. |
| `Tracker.NavigateTo` | app.js:250-269 | Sets the view and leaves the day, the completed days and the notices alone. It writes the slot (one write) if and only if the view is `"day"`. |
| `Tracker.Reparse` | app.js:274 | Calling `parseInt` on a value that is already a number (NaN or an integer, printed in plain decimal) gives that value back. |
| `Tracker.LoadDayContent` | app.js:272-286 | A day in 1..90 becomes current as given. NaN or a day outside the range becomes day 1. The view becomes `"day"`, the completed days are unchanged, the slot holds the new progress after two writes, and the notices gain the warning (only if out of range) and then the loading notice. |
| `Tracker.LoadDayContentWarnings` | app.js:275-278 | Opening a day adds exactly one warning notice when the day is out of range, and none otherwise. |
| `Tracker.LoadDayContentTwice` | app.js:629-631 | Opening the current day again changes nothing but the write count (+2) and the notices (one more loading notice). A grid click runs both the item's own listener and the delegated handler. |
| `Tracker.MarkComplete` | app.js:207-211 | If the current day is already completed, the state is unchanged: no write, no notice. Otherwise it is appended, the slot holds the new progress after one write, a success notice is added, and the day and view are unchanged. |
| `Tracker.MarkCompleteIdempotent` | app.js:207-211 | Marking complete twice equals marking once. |
| `Tracker.MarkCompleteAddsCurrentDay` | app.js:207-209 | The set of completed days afterwards is the set before plus the current day. |
| `Tracker.Render` | app.js:318-336 | The day view renders the current day's page. `challenges`, `docs` and `lectures` render their pages. Every other view name, known or not, renders the home page (both directions). |
| `Tracker.NavigationReachesEveryPage` | app.js:250-252 | From any state, one navigation reaches each of the five pages. |
| `Tracker.StepPreservesValid` | app.js:77-211 | Each gesture keeps the current day in 1..90 and the completed days in 1..90 without duplicates. |
| `Tracker.RunPreservesValid` | app.js:77-211 | Any sequence of gestures keeps that invariant. |
| `Tracker.StepPreservesSynced` | app.js:77-211 | If the slot holds the state's progress, it still does after any gesture: every change to the day or to the completed days is saved. |
| `Tracker.RunPreservesSynced` | app.js:77-211 | The same for any sequence of gestures. |
| `Tracker.ReloadRestores` | app.js:14-33 | Reloading a valid, saved state starts from the initial values and loads back the same day and the same completed days. |
| `Tracker.OpenDayThenReload` | app.js:272-286 | After opening a day, a reloaded page comes back to that day (day 1 if the day was rejected) and to the same completed days. |
| `Tracker.OpenDayByText` | app.js:93-98 | A button whose `data-day` text is a day in 1..90 opens exactly that day, with only the loading notice. |
| `Tracker.DayLinksOpenTheirDay` | app.js:93-98 | Clicking the previous or next button of a valid state parses the `data-day` text of the day it offers and opens exactly that day, with no warning. |
| `Tracker.Step` | app.js:77-211 | One gesture of the delegated click handler (the navigation and day branches at lines 77-98, mark-complete at 207-211): only a day button moves the current day, and it always opens the day view. Only the mark-complete button changes the completed days, and then only by adding to them. A navigation link sets the view it names. |
| `DayGrid.BuildGrid` | app.js:613-627 | Produces 90 items for days 1..90. An item is completed if and only if its day is in the completed days, and active if and only if its day is the current day. |
| `DayGrid.GridCountsCompleted` | app.js:600-627 | In a valid state, the number of grid items marked completed equals the count in the "N of 90 days completed" text. |
| `DayGrid.GridHasOneActive` | app.js:624-627 | When the current day is in 1..90, its item is the only active one. |
| `DayGrid.Summary` | app.js:600-602 | The summary shows the number of completed days and that number over 90 as a percentage, rounded to the nearest integer. |
| `DayGrid.SummaryBounded` | app.js:596-602 | In a valid state, at most 90 days are completed and the percentage is at most 100. |
| `Numbers.PercentComplete` | app.js:489-491 | `Math.round(n / 90 * 100)` is the integer nearest to 100n/90, and at most 100 when n ≤ 90. |
| `Numbers.ParseInt` | app.js:89-97 | `parseInt` without a radix: text that is empty after the leading white space is NaN. A number is read only when a decimal digit follows the optional sign, and it is negative only after a minus sign. |
| `Numbers.IntToString` | app.js:285 | An integer prints as a minus sign exactly when it is negative, followed by at least one decimal digit and nothing else. |
| `Numbers.ParseIntOfPrinted` | app.js:274 | Printing any integer and parsing the text with `parseInt` gives the integer back. |
| `Numbers.ParseIntOfIntToString` | app.js:274 | Printing an integer and parsing it with `parseInt` gives the integer back, even when other text follows, as long as that text does not start with a digit, `x` or `X`. |
| `Numbers.ParseIntOfNonNumeric` | app.js:274 | Text starting with anything other than white space, a sign or a digit (such as "NaN") parses to NaN. |
| `Numbers.TrimStart` | app.js:274 | `parseInt` drops exactly the leading white space: what is left is a suffix that does not start with white space. |
| `Numbers.DigitRun` | app.js:274 | `parseInt` reads the longest run of digits: all digits, and the next character (if any) is not one. |
| `Numbers.NatToString` | app.js:285 | A number prints as a non-empty string of decimal digits with no leading zero, and "0" exactly for 0. |
| `Text.Capitalize` | app.js:1973 | `charAt(0).toUpperCase() + slice(1)` keeps the length, upper-cases the first character and keeps the rest. |
| `Text.ToLower` | app.js:2248 | `toLowerCase()` keeps the length and lower-cases each character. |
| `Text.ReplaceAll` | app.js:1973 | `replace(/-/g, " ")` keeps the length and replaces every hyphen with a space, and nothing else. |
| `Text.LastWord` | app.js:2466-2468 | `split(" ").pop()` is the longest space-free suffix: it contains no space and is preceded by a space unless it is the whole string. |
| `Text.LastWordAfterSpace` | app.js:2466-2468 | The last word of `prefix + " " + w` is `w` when `w` has no space. |
| `DayContent.DayDifficulty` | app.js:2707-2716 | A day is easy if and only if it is ≤ 30, medium if and only if it is 31..60, and hard if and only if it is > 60. |
| `DayContent.DifficultyMonotone` | app.js:2707-2716 | Difficulty never decreases as the day number grows. |
| `DayContent.LabelAndClassName` | app.js:2172-2174 | A card label lower-cased is the badge's class name, and the class name capitalised is the label. |
| `DayContent.TopicBand` | app.js:2330-2355 | The if-chain selects one of 11 bands: band 0 up to day 8, band b for days 8b+1..8b+8 up to 80, and band 10 after 80. |
| `DayContent.TopicBandClosedForm` | app.js:2330-2355 | The band equals `(day - 1) / 8`, clamped to bands 0 and 10. |
| `DayContent.TopicBandMonotone` | app.js:2330-2355 | A later day never falls in an earlier band. |
| `DayContent.TopicTags` | app.js:2330-2355 | Every day gets one of the 11 tag lists, each with 2 or 3 tags. Three tags if and only if the day is 17..24. "Arrays" first if and only if the day is ≤ 8, "Advanced Topics" first if and only if the day is > 80. Days 9..80 get list `(day - 1) / 8`, one list per 8 days. |
| `DayContent.DayProblems` | app.js:2459-2497 | Three problems if and only if the day is > 30, otherwise two. They are numbered from 1, all use the given keyword, and come in the order Easy, Medium, then Hard. |
| `DayContent.GetDayProblems` | app.js:2459-2497 | The cards of a day as the page builds them: two or three, each built around the last word of the day's title (a single space-free word), and around "Content" when the day has no title. |
| `DayContent.HardProblemIffNotEasy` | app.js:2484-2494 | A Hard problem is offered if and only if the day's difficulty badge is not easy. |
| `DayContent.ProblemsCoverDifficulty` | app.js:2459-2497 | The day's own difficulty level is always among its problems' levels. |
| `DayContent.ProblemKeyword` | app.js:2466-2468 | A problem's keyword is one space-free word: the last word of the table title, or "Content" when the day has no title. |
| `DayContent.Links` | app.js:2300-2313 | A previous link exists if and only if the day is > 1, and leads to the day before. A next link exists if and only if the day is < 90, and leads to the day after. |
| `DayContent.LinksStayInRange` | app.js:2300-2313 | From any day in 1..90, every link leads into 1..90, and at least one link is offered. |
| `DayContent.DayTitle` | app.js:2606 | The title is never empty: it is the table's entry when that is truthy, else "Day N Content". |
| `DayContent.FallbackTitleKeyword` | app.js:2606 | The last word of the fallback title is "Content". |
| `DayContent.DayDescription` | app.js:2704 | The description is never empty: it is the table's entry when that is truthy, else the fixed fallback sentence. |
| `DayContent.DefaultTopicTitle` | app.js:1972-1974 | The heading keeps the id's length. The first character is upper-cased, every later hyphen becomes a space, and every other character is kept. |
| `DayContent.DefaultTopicTitleIdempotent` | app.js:1972-1974 | Formatting a heading a second time changes nothing. |
| `DayContent.TopicIdRoundTrip` | app.js:1972-1974 | For an id with no spaces that does not start with an upper-case letter, the id can be recovered from its heading. |
| `DayContent.FilterLectures` | app.js:2719-2731 | One flag per card. With filter "all", every card is shown. Otherwise a card is shown if and only if its topic equals the filter. |
| `Scenarios.FreshStore` | app.js:3-33 | With an empty slot, loading gives day 1 and no completed days. |
| `Scenarios.CompleteDayFive` | app.js:207-211 | Completing day 5 from nothing records `[5]` with one write, and the summary is (1, 1%). |
| `Scenarios.SelectDayTwoHundred` | app.js:272-282 | Asking for day 200 opens day 1 in the day view with exactly one warning. |
| `Scenarios.MarkDayTenTwice` | app.js:207-211 | Two mark-complete clicks on day 10 record `[10]` with a single write. |

## Left out

- Page markup: headers, footers, the home, docs and lectures pages, the
  day-page sections, CSS class toggling and `innerHTML` templates. These are
  presentation only. The day grid's completed/active marking is modelled
  (`DayGrid`).
- Timers and randomness: notice dismissal after 3 seconds, the simulated
  500 ms delay of `loadTopicContent`, and `applyAnimations`, including its
  `Math.random` timings. A notice is modelled as shown once, and is never
  removed.
- The lecture and code-sample text, and the lectures of `getTopicContent`'s
  known topics. These are static text. Only the default heading is modelled.
- The 90-entry title and description tables. They are parameters of
  `DayTitle`/`DayDescription`, and only the fallback behaviour is modelled.
- The problem cards' title, description and URL templates. A card is
  modelled by its number, difficulty and keyword.
- JSON text and `localStorage` I/O. The slot is abstract (`ProgressStore.Slot`).
  A stored record whose fields are not an integer list and an integer (for
  example a string day) is not modelled. Nor is slot text that parses to
  something other than an object: "null" makes reading
  `progress.completedDays` throw a TypeError, and "5" loads as no completed
  days and day 1. Either needs the storage edited by hand.
- The progress bar's fractional CSS width. Only the rounded percentage is
  modelled, in integer arithmetic. It agrees with the floating-point
  computation because 100n/90 is never within 1/180 of a half.
- Dark mode, the mobile menu toggle, solution tabs, and the info notices of
  the "Solve Problem", resource and external links. They are presentation
  toggles and messages with no effect on the tracker.
- A click on an element that matches several delegated selectors (such as
  the home page's "Continue Day" button, which is both a navigation link and
  a day button) runs several handlers in order. The model runs them as
  consecutive `Tracker.Action`s with `Tracker.Run`, not as one combined
  gesture. A click on a day grid item likewise runs the item's own listener
  and then the delegated handler, so it is `Run(s, [DayButton(t),
  DayButton(t)])`: two `loadDayContent` calls, four writes and two loading
  notices (`Tracker.LoadDayContentTwice`).
- Numbers.ParseInt: JavaScript numbers are doubles, so digits beyond 2^53
  are rounded. The model uses unbounded integers.
- Tracker.Reparse: the identity holds only for |n| < 10^21. From 10^21 up,
  JavaScript prints a number in exponent notation, so `parseInt(5e21)` reads
  "5e+21" and returns 5. A `data-day` of "5000000000000000000000" therefore
  opens day 5 with no warning in the browser, while the model opens day 1
  with a warning. Only a slot edited by hand to hold a day of 10^21 or more
  makes the page print such a `data-day`. Its Start/Continue/previous/next
  buttons then read "5e+21" and open day 5, while the model opens day 1 with
  a warning.
- Numbers.IntToString: template literals print a number of 10^21 or more in
  exponent notation ("5e+21"); the model prints every integer in plain
  decimal.
- Text.Capitalize: JavaScript's full Unicode case mapping (where one
  character can become two) is not modelled. Case mapping covers ASCII
  letters only, which are all the ids and labels the app passes through it.

=== FILE: day_content.dfy ===
/** The pure helpers that map a day of the 90-day curriculum to what the day
    page shows about it: difficulty, topic tags, practice problems,
    previous/next links and the title/description fallbacks; plus the
    default lecture heading and the lecture filter. */
module DayContent {

  import opened Wrappers
  import opened Text
  import opened Numbers

  /** Number of days in the curriculum. */
  const LastDay: int := 90

  /** The three difficulty levels, easiest first. */
  datatype Level = Easy | Medium | Hard {

    /** The CSS class name, as `getDayDifficulty` returns it. */
    function ClassName(): string {
      match this
      case Easy => "easy"
      case Medium => "medium"
      case Hard => "hard"
    }

    /** The label a practice problem card carries. */
    function Label(): string {
      match this
      case Easy => "Easy"
      case Medium => "Medium"
      case Hard => "Hard"
    }

    function Rank(): nat {
      match this
      case Easy => 0
      case Medium => 1
      case Hard => 2
    }
  }

  /** `getDayDifficulty`: three bands of thirty days, stated both ways: a
      day is easy exactly up to day 30, medium from 31 to 60, hard after. */
  function DayDifficulty(day: int): (r: Level)
    ensures r == Easy <==> day <= 30
    ensures r == Medium <==> 30 < day <= 60
    ensures r == Hard <==> 60 < day
  {
    if day <= 30 then Easy
    else if day <= 60 then Medium
    else Hard
  }

  /** Difficulty never decreases as the days go on. */
  lemma DifficultyMonotone(d1: int, d2: int)
    requires d1 <= d2
    ensures DayDifficulty(d1).Rank() <= DayDifficulty(d2).Rank()
  {
  }

  /** A level's card label and class name are the same word up to the case
      of the first letter, which is how the day page turns one into the
      other (`toLowerCase()` on a card label, capitalising the badge). */
  lemma LabelAndClassName(l: Level)
    ensures ToLower(l.Label()) == l.ClassName()
    ensures Capitalize(l.ClassName()) == l.Label()
  {
  }

  /** The tag lists of `getTopicTags`, one per band of eight days; the last
      band covers every day after 80. */
  const TopicBands: seq<seq<string>> := [
    ["Arrays", "Time Complexity"],
    ["Linked Lists", "Pointers"],
    ["Stacks", "Queues", "Hash Tables"],
    ["Trees", "Binary Search Trees"],
    ["Heaps", "Priority Queues"],
    ["Graphs", "Graph Algorithms"],
    ["Sorting", "Searching"],
    ["Dynamic Programming", "Memoization"],
    ["Greedy Algorithms", "Divide & Conquer"],
    ["Backtracking", "Branch & Bound"],
    ["Advanced Topics", "Interview Preparation"]
  ]

  /** Which branch of `getTopicTags`'s if-chain a day reaches. */
  function TopicBand(day: int): (b: nat)
    ensures b < |TopicBands|
    ensures day <= 8 ==> b == 0
    ensures 8 < day <= 80 ==> 8 * b < day <= 8 * b + 8
    ensures 80 < day ==> b == 10
  {
    if day <= 8 then 0
    else if day <= 16 then 1
    else if day <= 24 then 2
    else if day <= 32 then 3
    else if day <= 40 then 4
    else if day <= 48 then 5
    else if day <= 56 then 6
    else if day <= 64 then 7
    else if day <= 72 then 8
    else if day <= 80 then 9
    else 10
  }

  /** The band as a closed form: the if-chain is integer division by 8,
      clamped to the first and the last band. */
  lemma TopicBandClosedForm(day: int)
    ensures TopicBand(day) == if day <= 8 then 0 else if day > 80 then 10 else (day - 1) / 8
  {
  }

  /** Later days never fall in an earlier band. */
  lemma TopicBandMonotone(d1: int, d2: int)
    requires d1 <= d2
    ensures TopicBand(d1) <= TopicBand(d2)
  {
  }

  /** `getTopicTags`. */
  function TopicTags(day: int): (r: seq<string>)
    ensures r in TopicBands
    ensures 2 <= |r| <= 3
    ensures |r| == 3 <==> 16 < day <= 24
    ensures r[0] == "Arrays" <==> day <= 8
    ensures r[0] == "Advanced Topics" <==> 80 < day
    ensures 8 < day <= 80 ==> r == TopicBands[(day - 1) / 8]
  {
    TopicBands[TopicBand(day)]
  }

  /** A practice problem card: its position, difficulty, and the keyword
      (last word of the day's title) its text is built around. */
  datatype Problem = Problem(number: nat, difficulty: Level, keyword: string)

  /** `getDayProblems`: an Easy and a Medium problem every day, plus a Hard
      one after day 30. Every card is built around `keyword`, the last word
      of the day's title (see `ProblemKeyword`). */
  function DayProblems(day: int, keyword: string): (r: seq<Problem>)
    ensures |r| == if day > 30 then 3 else 2
    ensures forall i :: 0 <= i < |r| ==> r[i].number == i + 1 && r[i].keyword == keyword
    ensures r[0].difficulty == Easy && r[1].difficulty == Medium
    ensures |r| == 3 ==> r[2].difficulty == Hard
  {
    var basic := [Problem(1, Easy, keyword), Problem(2, Medium, keyword)];
    if day > 30 then basic + [Problem(3, Hard, keyword)] else basic
  }

  /** Whether some card of `ps` has level `l`. */
  predicate Offers(ps: seq<Problem>, l: Level) {
    exists i :: 0 <= i < |ps| && ps[i].difficulty == l
  }

  /** A Hard problem is offered exactly on the days that are not easy. */
  lemma HardProblemIffNotEasy(day: int, keyword: string)
    ensures Offers(DayProblems(day, keyword), Hard) <==> DayDifficulty(day) != Easy
  {
  }

  /** The day's own badge level is always among its cards' levels. */
  lemma ProblemsCoverDifficulty(day: int, keyword: string)
    ensures Offers(DayProblems(day, keyword), DayDifficulty(day))
  {
  }

  /** The previous/next buttons at the foot of a day page. */
  datatype DayLinks = DayLinks(previous: Option<int>, next: Option<int>)

  /** The navigation section of `createDayView`. */
  function Links(day: int): (r: DayLinks)
    ensures r.previous.Some? <==> day > 1
    ensures r.previous.Some? ==> r.previous.value == day - 1
    ensures r.next.Some? <==> day < LastDay
    ensures r.next.Some? ==> r.next.value == day + 1
  {
    DayLinks(if day > 1 then Some(day - 1) else None,
             if day < LastDay then Some(day + 1) else None)
  }

  /** From any day of the curriculum, every offered link leads to a day of
      the curriculum, and at least one link is offered. */
  lemma LinksStayInRange(day: int)
    requires 1 <= day <= LastDay
    ensures Links(day).previous.Some? ==> 1 <= Links(day).previous.value <= LastDay
    ensures Links(day).next.Some? ==> 1 <= Links(day).next.value <= LastDay
    ensures Links(day).previous.Some? || Links(day).next.Some?
  {
  }

  /** Whether a lookup-table entry exists and is truthy (not empty). */
  predicate HasEntry(table: map<int, string>, day: int) {
    day in table && table[day] != ""
  }

  /** The title shown when the table has none for a day. */
  function FallbackTitle(day: int): string {
    "Day " + IntToString(day) + " Content"
  }

  /** `getDayTitle`: the table entry, or the fallback. The 90-entry table is
      a parameter. */
  function DayTitle(titles: map<int, string>, day: int): (r: string)
    ensures r != ""
    ensures HasEntry(titles, day) ==> r == titles[day]
    ensures !HasEntry(titles, day) ==> r == FallbackTitle(day)
  {
    if HasEntry(titles, day) then titles[day] else FallbackTitle(day)
  }

  /** The keyword of the fallback title, which the problem cards use, is
      "Content". */
  lemma FallbackTitleKeyword(day: int)
    ensures LastWord(FallbackTitle(day)) == "Content"
  {
    assert FallbackTitle(day) == "Day " + IntToString(day) + " " + "Content";
    LastWordAfterSpace("Day " + IntToString(day), "Content");
  }

  /** `getDayTitle(day).split(" ").pop()`, the word the practice problems
      of a day are named after: one word of the title, and "Content" for a
      day without a title. */
  function ProblemKeyword(titles: map<int, string>, day: int): (r: string)
    ensures ' ' !in r
    ensures HasEntry(titles, day) ==> r == LastWord(titles[day])
    ensures !HasEntry(titles, day) ==> r == "Content"
  {
    var title := DayTitle(titles, day);
    if HasEntry(titles, day) then LastWord(title)
    else FallbackTitleKeyword(day); LastWord(title)
  }

  /** `getDayProblems(day)` as the page calls it: the cards of the day, all
      built around the last word of the day's title. */
  function GetDayProblems(titles: map<int, string>, day: int): (r: seq<Problem>)
    ensures |r| == if day > 30 then 3 else 2
    ensures forall i :: 0 <= i < |r| ==> r[i].keyword == ProblemKeyword(titles, day) && ' ' !in r[i].keyword
    ensures !HasEntry(titles, day) ==> forall i :: 0 <= i < |r| ==> r[i].keyword == "Content"
  {
    DayProblems(day, ProblemKeyword(titles, day))
  }

  const FallbackDescription: string := "Detailed lesson and challenges for this day of the DSA journey."

  /** `getDayDescription`: the table entry, or the fallback sentence. */
  function DayDescription(descriptions: map<int, string>, day: int): (r: string)
    ensures r != ""
    ensures HasEntry(descriptions, day) ==> r == descriptions[day]
    ensures !HasEntry(descriptions, day) ==> r == FallbackDescription
  {
    if HasEntry(descriptions, day) then descriptions[day] else FallbackDescription
  }

  /** The heading `getTopicContent` gives a topic it has no lecture for:
      the id with its first character upper-cased and every later hyphen
      turned into a space. */
  function DefaultTopicTitle(id: string): (r: string)
    ensures |r| == |id|
    ensures id != [] ==> r[0] == UpperChar(id[0])
    ensures forall i :: 1 <= i < |id| ==> r[i] == (if id[i] == '-' then ' ' else id[i])
  {
    if id == [] then [] else Capitalize(id[..1]) + ReplaceAll(id[1..], '-', ' ')
  }

  /** Formatting a heading a second time changes nothing. */
  lemma DefaultTopicTitleIdempotent(id: string)
    ensures DefaultTopicTitle(DefaultTopicTitle(id)) == DefaultTopicTitle(id)
  {
  }

  /** Reverses `DefaultTopicTitle`: lower-case the first character and turn
      later spaces back into hyphens. */
  function TopicIdOf(title: string): (r: string)
    ensures |r| == |title|
  {
    if title == [] then [] else [LowerChar(title[0])] + ReplaceAll(title[1..], ' ', '-')
  }

  /** For an id without spaces whose first character is not an upper-case
      letter (every id the lecture pages use), the heading loses nothing:
      the id can be read back from it. */
  lemma TopicIdRoundTrip(id: string)
    requires ' ' !in id
    requires id != [] ==> !IsUpper(id[0])
    ensures TopicIdOf(DefaultTopicTitle(id)) == id
  {
  }

  /** The visibility test `filterLectures` applies to each lecture card. */
  predicate CardShown(filter: string, topic: string) {
    filter == "all" || topic == filter
  }

  /** `filterLectures`: the display flag of each card, in document order. */
  method FilterLectures(filter: string, topics: seq<string>) returns (shown: seq<bool>)
    ensures |shown| == |topics|
    ensures filter == "all" ==> forall i :: 0 <= i < |shown| ==> shown[i]
    ensures filter != "all" ==> forall i :: 0 <= i < |shown| ==> (shown[i] <==> topics[i] == filter)
  {
    shown := [];
    var i := 0;
    while i < |topics|
      invariant 0 <= i <= |topics|
      invariant |shown| == i
      invariant forall j :: 0 <= j < i ==> (shown[j] <==> CardShown(filter, topics[j]))
    {
      shown := shown + [CardShown(filter, topics[i])];
      i := i + 1;
    }
  }
}

=== FILE: day_grid.dfy ===
/** The grid of the challenges page (and `updateUI`'s refresh of it): one
    item per day, marked completed when the day is in `completedDays` and
    active when it is `currentDay`; and the "N of 90 days completed (P%)"
    summary next to it. */
module DayGrid {

  import opened Numbers
  import opened DayContent
  import opened Tracker

  datatype Cell = Cell(day: int, completed: bool, active: bool)

  /** The classes the item of `day` carries in state `s`. */
  function CellFor(s: State, day: int): Cell {
    Cell(day, day in s.completedDays, day == s.currentDay)
  }

  /** `cells` is the grid of `s`: days 1 to 90 in order. */
  predicate IsGridOf(s: State, cells: seq<Cell>) {
    |cells| == LastDay && forall i :: 0 <= i < |cells| ==> cells[i] == CellFor(s, i + 1)
  }

  /** The `for (let i = 1; i <= 90; i++)` loop of `createChallengesView`. */
  method BuildGrid(s: State) returns (cells: seq<Cell>)
    ensures |cells| == LastDay
    ensures forall i :: 0 <= i < |cells| ==> cells[i].day == i + 1
    ensures forall i :: 0 <= i < |cells| ==> (cells[i].completed <==> i + 1 in s.completedDays)
    ensures forall i :: 0 <= i < |cells| ==> (cells[i].active <==> i + 1 == s.currentDay)
  {
    cells := [];
    var day := 1;
    while day <= LastDay
      invariant 1 <= day <= LastDay + 1
      invariant |cells| == day - 1
      invariant forall i :: 0 <= i < |cells| ==> cells[i] == CellFor(s, i + 1)
    {
      cells := cells + [CellFor(s, day)];
      day := day + 1;
    }
  }

  /** Number of items marked completed. */
  function CountCompleted(cells: seq<Cell>): nat {
    if cells == [] then 0
    else CountCompleted(cells[..|cells| - 1]) + (if cells[|cells| - 1].completed then 1 else 0)
  }

  /** The completed days among 1..k. */
  function CompletedUpTo(xs: seq<int>, k: int): set<int> {
    set d | d in xs && 1 <= d <= k
  }

  lemma {:induction false} CountCompletedPrefix(s: State, cells: seq<Cell>, k: nat)
    requires IsGridOf(s, cells) && k <= |cells|
    ensures CountCompleted(cells[..k]) == |CompletedUpTo(s.completedDays, k)|
  {
    if k > 0 {
      CountCompletedPrefix(s, cells, k - 1);
      assert cells[..k][..k - 1] == cells[..k - 1];
      var before := CompletedUpTo(s.completedDays, k - 1);
      if k in s.completedDays {
        assert CompletedUpTo(s.completedDays, k) == before + {k};
      } else {
        assert CompletedUpTo(s.completedDays, k) == before;
      }
    }
  }

  /** A list without duplicates has as many elements as its set. */
  lemma {:induction false} DistinctCount(xs: seq<int>)
    requires NoDuplicates(xs)
    ensures |set d | d in xs| == |xs|
  {
    if xs != [] {
      var ys := xs[..|xs| - 1];
      var z := xs[|xs| - 1];
      assert NoDuplicates(ys);
      DistinctCount(ys);
      assert (set d | d in xs) == (set d | d in ys) + {z};
      assert z !in (set d | d in ys);
    }
  }

  /** In a valid state the grid marks exactly as many days completed as the
      summary counts: each completed day lights one item. */
  lemma GridCountsCompleted(s: State, cells: seq<Cell>)
    requires Valid(s) && IsGridOf(s, cells)
    ensures CountCompleted(cells) == |s.completedDays|
  {
    CountCompletedPrefix(s, cells, |cells|);
    assert cells[..|cells|] == cells;
    assert CompletedUpTo(s.completedDays, LastDay) == set d | d in s.completedDays;
    DistinctCount(s.completedDays);
  }

  /** The item of the current day is the one active item. */
  lemma GridHasOneActive(s: State, cells: seq<Cell>)
    requires 1 <= s.currentDay <= LastDay && IsGridOf(s, cells)
    ensures cells[s.currentDay - 1].active
    ensures forall i :: 0 <= i < |cells| && cells[i].active ==> i == s.currentDay - 1
  {
  }

  /** The "N of 90 days completed (P%)" summary of the home and challenges
      pages. */
  function Summary(s: State): (r: (nat, nat))
    ensures r.0 == |s.completedDays|
    ensures 90 * r.1 - 45 <= 100 * r.0 < 90 * r.1 + 45
  {
    (|s.completedDays|, PercentComplete(|s.completedDays|))
  }

  /** In a valid state at most the 90 days can be completed, so the
      percentage stays within 0..100. */
  lemma SummaryBounded(s: State)
    requires Valid(s)
    ensures Summary(s).0 <= LastDay && Summary(s).1 <= 100
  {
    var cells := seq(LastDay, i => CellFor(s, i + 1));
    GridCountsCompleted(s, cells);
    CountAtMostLength(cells);
  }

  lemma {:induction false} CountAtMostLength(cells: seq<Cell>)
    ensures CountCompleted(cells) <= |cells|
  {
    if cells != [] {
      CountAtMostLength(cells[..|cells| - 1]);
    }
  }
}

=== FILE: numbers.dfy ===
/** The JavaScript number conversions the tracker relies on: `parseInt` with
    no radix (how a day number is read back from a `data-day` attribute or
    re-read inside `loadDayContent`), the decimal rendering of an integer in
    a template literal, and `Math.round` of the completion percentage. */
module Numbers {

  import opened Wrappers

  /** What `parseInt` yields: NaN, or an integral number. JavaScript's -0 is
      the integer 0 here; both compare below 1. */
  datatype Parsed = NaN | Num(value: int)

  /** The white space and line terminators `parseInt` skips before the
      number: the ASCII ones, the byte order mark, the Unicode space
      separators and the two Unicode line terminators. */
  predicate IsSpace(c: char) {
    || c == ' ' || c == '\t' || c == '\n' || c == '\r' || c == '\U{B}' || c == '\U{C}'
    || c == '\U{FEFF}' || c == '\U{A0}' || c == '\U{1680}' || '\U{2000}' <= c <= '\U{200A}'
    || c == '\U{202F}' || c == '\U{205F}' || c == '\U{3000}'
    || c == '\U{2028}' || c == '\U{2029}'
  }

  predicate IsDecimalDigit(c: char) {
    '0' <= c <= '9'
  }

  /** A digit of the given radix; `parseInt` without a radix uses 10, or 16
      after a `0x`/`0X` prefix. */
  predicate IsRadixDigit(c: char, radix: nat) {
    if radix == 16 then IsDecimalDigit(c) || 'a' <= c <= 'f' || 'A' <= c <= 'F'
    else IsDecimalDigit(c)
  }

  function DigitValue(c: char): (v: nat)
    ensures IsDecimalDigit(c) ==> v == c as int - '0' as int
    ensures IsRadixDigit(c, 16) ==> v < 16
  {
    if IsDecimalDigit(c) then c as int - '0' as int
    else if 'a' <= c <= 'f' then c as int - 'a' as int + 10
    else if 'A' <= c <= 'F' then c as int - 'A' as int + 10
    else 0
  }

  /** Drops the leading white space. */
  function TrimStart(s: string): (r: string)
    ensures |r| <= |s| && r == s[|s| - |r|..]
    ensures r == [] || !IsSpace(r[0])
    ensures forall i :: 0 <= i < |s| - |r| ==> IsSpace(s[i])
  {
    if s != [] && IsSpace(s[0]) then
      var r := TrimStart(s[1..]);
      assert forall i :: 1 <= i < |s| - |r| ==> s[i] == s[1..][i - 1];
      r
    else s
  }

  /** Length of the longest prefix of `s` made of digits of `radix`. */
  function DigitRun(s: string, radix: nat): (k: nat)
    ensures k <= |s|
    ensures forall i :: 0 <= i < k ==> IsRadixDigit(s[i], radix)
    ensures k < |s| ==> !IsRadixDigit(s[k], radix)
  {
    if s != [] && IsRadixDigit(s[0], radix) then 1 + DigitRun(s[1..], radix) else 0
  }

  /** The value of a digit string, most significant digit first. */
  function DigitsValue(digits: string, radix: nat): nat {
    if digits == [] then 0
    else DigitsValue(digits[..|digits| - 1], radix) * radix + DigitValue(digits[|digits| - 1])
  }

  /** The unsigned part of `parseInt`: radix 16 after a `0x`/`0X` prefix,
      otherwise radix 10, then the longest run of digits; None when that run
      is empty. */
  function ParseMagnitude(u: string): Option<nat>
  {
    var hex := |u| >= 2 && u[0] == '0' && (u[1] == 'x' || u[1] == 'X');
    var radix := if hex then 16 else 10;
    var v := if hex then u[2..] else u;
    var k := DigitRun(v, radix);
    if k == 0 then None
    else
      Some(DigitsValue(v[..k], radix))
  }

  /** A sign, if any, followed by a decimal digit: the only shape of text
      (after the leading white space) from which `parseInt` reads a number. */
  predicate DigitAfterSign(t: string) {
    var u := if t != [] && (t[0] == '-' || t[0] == '+') then t[1..] else t;
    u != [] && IsDecimalDigit(u[0])
  }

  /** `parseInt(s)` with no radix argument (section 19.2.5 of ECMA-262):
      skip leading white space, take an optional sign, then read the
      magnitude; no digits gives NaN. Text after the digits is ignored. */
  function ParseInt(s: string): (r: Parsed)
    ensures TrimStart(s) == [] ==> r == NaN
    ensures r.Num? ==> DigitAfterSign(TrimStart(s))
    ensures r.Num? && r.value < 0 ==> TrimStart(s)[0] == '-'
  {
    var t := TrimStart(s);
    var negative := t != [] && t[0] == '-';
    var u := if t != [] && (t[0] == '-' || t[0] == '+') then t[1..] else t;
    match ParseMagnitude(u)
    case None => NaN
    case Some(n) => Num(if negative then -(n as int) else n)
  }

  function DigitChar(d: nat): (c: char)
    requires d < 10
    ensures IsDecimalDigit(c) && DigitValue(c) == d
  {
    ('0' as int + d) as char
  }

  /** The decimal digits of `n`, as a template literal prints it. */
  function NatToString(n: nat): (s: string)
    ensures |s| >= 1
    ensures forall i :: 0 <= i < |s| ==> IsDecimalDigit(s[i])
    ensures n >= 10 ==> s[0] != '0'
    ensures n == 0 <==> s == "0"
  {
    if n < 10 then [DigitChar(n)] else NatToString(n / 10) + [DigitChar(n % 10)]
  }

  /** An integer as a template literal prints it (below 10^21): a minus
      sign, then the digits of its magnitude. */
  function IntToString(n: int): (s: string)
    ensures s != [] && (s[0] == '-' <==> n < 0)
    ensures n < 0 ==> |s| >= 2
    ensures forall i :: (if n < 0 then 1 else 0) <= i < |s| ==> IsDecimalDigit(s[i])
  {
    if n < 0 then "-" + NatToString(-n) else NatToString(n)
  }

  lemma {:induction false} DigitsValueOfNatToString(n: nat)
    ensures DigitsValue(NatToString(n), 10) == n
  {
    var s := NatToString(n);
    if n >= 10 {
      DigitsValueOfNatToString(n / 10);
      assert s[..|s| - 1] == NatToString(n / 10);
    }
  }

  /** A run of decimal digits followed by text that does not start with a
      digit is read in full. */
  lemma {:induction false} DigitRunStopsAfter(d: string, rest: string)
    requires forall i :: 0 <= i < |d| ==> IsDecimalDigit(d[i])
    requires rest == [] || !IsDecimalDigit(rest[0])
    ensures DigitRun(d + rest, 10) == |d|
  {
    if d != [] {
      assert (d + rest)[1..] == d[1..] + rest;
      DigitRunStopsAfter(d[1..], rest);
    } else {
      assert d + rest == rest;
    }
  }

  /** Printing an integer and parsing the text back gives the integer, also
      when the text continues with something that is not a digit (as in
      "5 Content"). The one exception is 0 followed by `x`, which `parseInt`
      reads as a hexadecimal prefix. */
  lemma ParseIntOfIntToString(n: int, rest: string)
    requires rest == [] || (!IsDecimalDigit(rest[0]) && rest[0] != 'x' && rest[0] != 'X')
    ensures ParseInt(IntToString(n) + rest) == Num(n)
  {
    if n < 0 {
      var m: nat := -n;
      SignedDigitsReadBack(m, rest);
      var d := NatToString(m);
      assert IntToString(n) == "-" + d;
      SignAssoc(d, rest);
    } else {
      SignedDigitsReadBack(n, rest);
    }
  }

  lemma SignAssoc(d: string, rest: string)
    ensures ("-" + d) + rest == "-" + (d + rest)
  {
  }

  /** The digits of `m` followed by such text read back as `m`, and as `-m`
      after a minus sign. */
  lemma SignedDigitsReadBack(m: nat, rest: string)
    requires rest == [] || (!IsDecimalDigit(rest[0]) && rest[0] != 'x' && rest[0] != 'X')
    ensures ParseInt(NatToString(m) + rest) == Num(m)
    ensures ParseInt("-" + (NatToString(m) + rest)) == Num(-(m as int))
  {
    var u := NatToString(m) + rest;
    MagnitudeOfNatToString(m, rest);
    assert IsDecimalDigit(u[0]);
    ParseIntSigned(u);
    var t := "-" + u;
    assert t[0] == '-' && t[1..] == u;
    ParseIntSigned(t);
  }

  /** Text that starts with a digit or a minus sign is read without
      trimming; the sign is applied to the magnitude read after it. */
  lemma ParseIntSigned(s: string)
    requires s != [] && (IsDecimalDigit(s[0]) || s[0] == '-')
    ensures s[0] == '-' ==> ParseInt(s) == match ParseMagnitude(s[1..])
      case None => NaN
      case Some(v) => Num(-(v as int))
    ensures s[0] != '-' ==> ParseInt(s) == match ParseMagnitude(s)
      case None => NaN
      case Some(v) => Num(v)
  {
    assert !IsSpace(s[0]);
    assert TrimStart(s) == s;
  }

  /** Printing an integer and parsing the text back gives the integer. */
  lemma ParseIntOfPrinted(n: int)
    ensures ParseInt(IntToString(n)) == Num(n)
  {
    ParseIntOfIntToString(n, []);
    assert IntToString(n) + [] == IntToString(n);
  }

  /** The printed digits of a number followed by such text read back as
      the number. */
  lemma MagnitudeOfNatToString(m: nat, rest: string)
    requires rest == [] || (!IsDecimalDigit(rest[0]) && rest[0] != 'x' && rest[0] != 'X')
    ensures ParseMagnitude(NatToString(m) + rest) == Some(m)
  {
    var d := NatToString(m);
    var u := d + rest;
    if |d| == 1 && rest != [] {
      assert u[1] == rest[0];
    }
    assert !(|u| >= 2 && u[0] == '0' && (u[1] == 'x' || u[1] == 'X'));
    DigitRunStopsAfter(d, rest);
    DigitsValueOfNatToString(m);
    assert u[..|d|] == d;
  }

  /** Text that starts with anything other than white space, a sign or a
      digit is not a number; `String(NaN)`, "NaN", is one such text. */
  lemma ParseIntOfNonNumeric(s: string)
    requires s != [] && !IsSpace(s[0]) && s[0] != '-' && s[0] != '+' && !IsDecimalDigit(s[0])
    ensures ParseInt(s) == NaN
  {
  }

  /** `Math.round(n / 90 * 100)`: the completion percentage shown next to
      the progress bar, in integer arithmetic. */
  function PercentComplete(n: nat): (r: nat)
    ensures 90 * r - 45 <= 100 * n < 90 * r + 45
    ensures n <= 90 ==> r <= 100
  {
    (200 * n + 90) / 180
  }
}

=== FILE: progress_store.dfy ===
/** The one storage slot `loadUserProgress` and `saveUserProgress` share:
    the `dsaMasterProgress` key of the browser's local storage, holding the
    completed days and the current day as a JSON object. The JSON text
    itself is abstracted into the record `JSON.parse` returns. */
module ProgressStore {

  import opened Wrappers

  /** What is saved: the completed days, in completion order, and the day
      last opened. */
  datatype Progress = Progress(completedDays: seq<int>, currentDay: int)

  /** The object `JSON.parse` returns for the stored text; a field that is
      absent or null reads as None. */
  datatype Record = Record(completedDays: Option<seq<int>>, currentDay: Option<int>)

  /** What `localStorage.getItem` finds under the key: nothing (null, or
      the empty string, which is just as falsy), text `JSON.parse` rejects,
      or a parsed record. */
  datatype Slot = Empty | Unparsable | Holds(record: Record)

  /** The exception `JSON.parse` throws on malformed text. */
  datatype LoadError = SyntaxError

  /** `progress.currentDay || 1`: a missing or zero day reads as day 1. */
  function DayOrFirst(day: Option<int>): (d: int)
    ensures d != 0
    ensures day.Some? && day.value != 0 ==> d == day.value
    ensures day.None? || day.value == 0 ==> d == 1
  {
    if day.Some? && day.value != 0 then day.value else 1
  }

  /** The progress a page load ends up with, starting from `current` (the
      initial values): unchanged when the slot is empty, the stored fields
      with their defaults otherwise; malformed text throws. */
  function Load(slot: Slot, current: Progress): (r: Result<Progress, LoadError>)
    ensures slot.Empty? ==> r == Success(current)
    ensures slot.Unparsable? ==> r == Failure(SyntaxError)
    ensures slot.Holds? ==> r.Success?
    ensures slot.Holds? ==> r.value.currentDay != 0
    ensures slot.Holds? && slot.record.currentDay.Some? && slot.record.currentDay.value != 0
      ==> r.value.currentDay == slot.record.currentDay.value
    ensures slot.Holds? && (slot.record.currentDay.None? || slot.record.currentDay.value == 0)
      ==> r.value.currentDay == 1
    ensures slot.Holds? && slot.record.completedDays.Some?
      ==> r.value.completedDays == slot.record.completedDays.value
    ensures slot.Holds? && slot.record.completedDays.None? ==> r.value.completedDays == []
  {
    match slot
    case Empty => Success(current)
    case Unparsable => Failure(SyntaxError)
    case Holds(record) =>
      Success(Progress(record.completedDays.GetOr([]), DayOrFirst(record.currentDay)))
  }

  /** `saveUserProgress`: the whole slot is overwritten, so whatever was
      loaded before, loading it back yields the saved progress, except
      that day 0 comes back as day 1. */
  function Save(p: Progress): (slot: Slot)
    ensures slot.Holds?
    ensures forall current :: Load(slot, current).Success?
    ensures forall current :: Load(slot, current).value.completedDays == p.completedDays
  {
    Holds(Record(Some(p.completedDays), Some(p.currentDay)))
  }

  /** Save then load round-trips exactly when the current day is not 0
      (both directions). */
  lemma SaveLoadRoundTrip(p: Progress, current: Progress)
    ensures Load(Save(p), current) == Success(p) <==> p.currentDay != 0
    ensures p.currentDay == 0 ==> Load(Save(p), current) == Success(Progress(p.completedDays, 1))
  {
  }
}

=== FILE: scenarios.dfy ===
/** Worked examples of the tracker, each a concrete run. */
module Scenarios {

  import Wrappers
  import opened Numbers
  import opened ProgressStore
  import opened Tracker
  import opened DayGrid

  /** A first visit: the slot is empty, so loading keeps day 1 and no
      completed days. */
  lemma FreshStore()
    ensures LoadUserProgress(Init(Empty)) == Wrappers.Success(Init(Empty))
    ensures Init(Empty).currentDay == 1 && Init(Empty).completedDays == []
  {
  }

  /** Completing day 5 from nothing records [5], saves it, and the summary
      reads "1 of 90 days completed (1%)". */
  lemma CompleteDayFive(slot: Slot)
    ensures var r := MarkComplete(Init(slot).(currentDay := 5));
      r.completedDays == [5] && Summary(r) == (1, 1) && r.writes == 1
  {
  }

  /** Asking for day 200 opens day 1 with one warning. */
  lemma SelectDayTwoHundred(slot: Slot)
    ensures var r := LoadDayContent(Init(slot), Num(200));
      && r.currentDay == 1 && r.view == "day"
      && CountKind(r.notices, WarningNotice) == 1
  {
    LoadDayContentWarnings(Init(slot), Num(200));
  }

  /** Two clicks on mark-complete for day 10 record it once and save once. */
  lemma MarkDayTenTwice(slot: Slot)
    ensures var s := LoadDayContent(Init(slot), Num(10));
      var r := Run(s, [MarkCompleteButton, MarkCompleteButton]);
      r.completedDays == [10] && r.writes == s.writes + 1
  {
    var s := LoadDayContent(Init(slot), Num(10));
    var once := MarkComplete(s);
    assert Run(s, [MarkCompleteButton, MarkCompleteButton]) == Run(once, [MarkCompleteButton]);
    assert Run(once, [MarkCompleteButton]) == MarkComplete(once);
    MarkCompleteIdempotent(s);
  }
}

=== FILE: text.dfy ===
/** The string helpers the page templates apply to topic ids, difficulty
    names and day titles: `charAt(0).toUpperCase() + slice(1)`,
    `replace(/-/g, " ")`, `toLowerCase()` and `split(" ").pop()`. Case
    mapping is modelled on ASCII letters, which is all the identifiers the
    application passes through them contain. */
module Text {

  predicate IsLower(c: char) {
    'a' <= c <= 'z'
  }

  predicate IsUpper(c: char) {
    'A' <= c <= 'Z'
  }

  function UpperChar(c: char): (r: char)
    ensures IsLower(c) ==> IsUpper(r) && r as int == c as int - 32
    ensures !IsLower(c) ==> r == c
  {
    if IsLower(c) then (c as int - 32) as char else c
  }

  function LowerChar(c: char): (r: char)
    ensures IsUpper(c) ==> IsLower(r) && r as int == c as int + 32
    ensures !IsUpper(c) ==> r == c
  {
    if IsUpper(c) then (c as int + 32) as char else c
  }

  /** `s.toLowerCase()`. */
  function ToLower(s: string): (r: string)
    ensures |r| == |s|
    ensures forall i :: 0 <= i < |s| ==> r[i] == LowerChar(s[i])
  {
    if s == [] then [] else [LowerChar(s[0])] + ToLower(s[1..])
  }

  /** `s.charAt(0).toUpperCase() + s.slice(1)`: only the first character
      changes. */
  function Capitalize(s: string): (r: string)
    ensures |r| == |s|
    ensures s != [] ==> r[0] == UpperChar(s[0])
    ensures forall i :: 1 <= i < |s| ==> r[i] == s[i]
  {
    if s == [] then [] else [UpperChar(s[0])] + s[1..]
  }

  /** `s.replace(/x/g, y)` for single characters `x` and `y`: every
      occurrence of `x` becomes `y`. */
  function ReplaceAll(s: string, x: char, y: char): (r: string)
    ensures |r| == |s|
    ensures forall i :: 0 <= i < |s| ==> r[i] == (if s[i] == x then y else s[i])
  {
    if s == [] then [] else [if s[0] == x then y else s[0]] + ReplaceAll(s[1..], x, y)
  }

  /** `s.split(" ").pop()`: the text after the last space, or all of `s`
      when it has no space. */
  function LastWord(s: string): (r: string)
    ensures |r| <= |s| && r == s[|s| - |r|..]
    ensures ' ' !in r
    ensures |r| < |s| ==> s[|s| - |r| - 1] == ' '
  {
    if s == [] || s[|s| - 1] == ' ' then []
    else LastWord(s[..|s| - 1]) + [s[|s| - 1]]
  }

  /** The last word of a title is what follows its last space. */
  lemma LastWordAfterSpace(prefix: string, w: string)
    requires ' ' !in w
    ensures LastWord(prefix + " " + w) == w
  {
    var s := prefix + " " + w;
    var r := LastWord(s);
    assert s[|s| - |w|..] == w;
    assert s[|s| - |w| - 1] == ' ';
  }
}

=== FILE: tracker.dfy ===
/** The day-progress tracker of app.js: the globals `currentDay`,
    `completedDays` and `currentView`, the operations that change them
    (`loadDayContent`, `navigateTo`, the mark-complete handler,
    `loadUserProgress`/`saveUserProgress`), the view dispatch of
    `renderApp`, and the gestures of the delegated click handler. Each operation is
    a pure function from one state to the next; the storage slot, the
    number of writes to it and the notices shown are part of the state. */
module Tracker {

  import Wrappers
  import opened Numbers
  import opened DayContent
  import opened ProgressStore

  /** The three notice styles of `showNotification`. */
  datatype NoticeKind = InfoNotice | WarningNotice | SuccessNotice

  datatype Notice = Notice(message: string, kind: NoticeKind)

  /** The whole mutable state of the page. `writes` counts the
      `localStorage.setItem` calls of `saveUserProgress`. */
  datatype State = State(
    currentDay: int,
    completedDays: seq<int>,
    view: string,
    slot: Slot,
    writes: nat,
    notices: seq<Notice>)
  {
    /** What `saveUserProgress` writes. */
    function Progress(): ProgressStore.Progress {
      ProgressStore.Progress(completedDays, currentDay)
    }
  }

  /** The globals' initial values, with whatever the slot holds. */
  function Init(slot: Slot): (s: State)
    ensures s.currentDay == 1 && s.completedDays == [] && s.view == "home"
    ensures s.slot == slot && s.writes == 0 && s.notices == []
  {
    State(1, [], "home", slot, 0, [])
  }

  /** `saveUserProgress`: overwrite the slot with the current progress. */
  function SaveUserProgress(s: State): (r: State)
    ensures forall current :: (Load(r.slot, current) == Wrappers.Success(s.Progress()) <==> s.currentDay != 0)
    ensures r.writes == s.writes + 1
    ensures r.(slot := s.slot, writes := s.writes) == s
  {
    forall current
      ensures (Load(Save(s.Progress()), current) == Wrappers.Success(s.Progress()) <==> s.currentDay != 0)
    {
      SaveLoadRoundTrip(s.Progress(), current);
    }
    s.(slot := Save(s.Progress()), writes := s.writes + 1)
  }

  /** `loadUserProgress`: with an empty slot nothing changes; otherwise the
      stored days replace the state's (a missing list reads as none, a
      missing or zero day as day 1); malformed text throws. Nothing is
      written. */
  function LoadUserProgress(s: State): (r: Wrappers.Result<State, LoadError>)
    ensures s.slot.Empty? ==> r == Wrappers.Success(s)
    ensures s.slot.Unparsable? ==> r.Failure?
    ensures r.Success? ==> r.value.view == s.view && r.value.slot == s.slot && r.value.writes == s.writes
    ensures r.Success? && s.slot.Holds? ==> r.value.currentDay != 0
    ensures r.Success? && s.slot.Holds? && s.slot.record.completedDays.None? ==> r.value.completedDays == []
    ensures s.slot.Holds? ==> r.Success? && Load(s.slot, s.Progress()) == Wrappers.Success(r.value.Progress())
    ensures r.Success? ==> r.value.(currentDay := s.currentDay, completedDays := s.completedDays) == s
  {
    match Load(s.slot, s.Progress())
    case Success(p) => Wrappers.Success(s.(currentDay := p.currentDay, completedDays := p.completedDays))
    case Failure(e) => Wrappers.Failure(e)
  }

  /** `navigateTo`: switch the view; only the day view saves. */
  function NavigateTo(s: State, view: string): (r: State)
    ensures r.view == view
    ensures r.currentDay == s.currentDay && r.completedDays == s.completedDays && r.notices == s.notices
    ensures view == "day" ==> r.slot == Save(s.Progress()) && r.writes == s.writes + 1
    ensures view != "day" ==> r.slot == s.slot && r.writes == s.writes
  {
    var moved := s.(view := view);
    if view == "day" then SaveUserProgress(moved) else moved
  }

  /** A day number `loadDayContent` accepts as it is. */
  predicate InRange(day: Parsed) {
    day.Num? && 1 <= day.value <= LastDay
  }

  const InvalidDayNotice: Notice := Notice("Invalid day number. Showing Day 1 content.", WarningNotice)

  function LoadingNotice(day: int): Notice {
    Notice("Loading Day " + IntToString(day) + " content...", InfoNotice)
  }

  /** `day = parseInt(day)` applied to a value that is already a number:
      JavaScript prints it and parses the text again. Printing is plain
      decimal here, as JavaScript prints every integer below 10^21. */
  function Reparse(day: Parsed): (r: Parsed)
    ensures r == day
  {
    match day
    case NaN =>
      ParseIntOfNonNumeric("NaN");
      ParseInt("NaN")
    case Num(n) =>
      ParseIntOfPrinted(n);
      ParseInt(IntToString(n))
  }

  /** `loadDayContent`: a day outside 1..90 (or NaN) becomes day 1 with a
      warning; the day becomes current, the day view opens, the progress is
      saved (by `navigateTo` and once more), and a loading notice follows. */
  function LoadDayContent(s: State, day: Parsed): (r: State)
    ensures InRange(day) ==> r.currentDay == day.value
    ensures !InRange(day) ==> r.currentDay == 1
    ensures r.view == "day"
    ensures r.completedDays == s.completedDays
    ensures r.slot == Save(r.Progress())
    ensures r.writes == s.writes + 2
    ensures InRange(day) ==> r.notices == s.notices + [LoadingNotice(r.currentDay)]
    ensures !InRange(day) ==> r.notices == s.notices + [InvalidDayNotice, LoadingNotice(1)]
  {
    var d := Reparse(day);
    var valid := d.Num? && 1 <= d.value <= LastDay;
    var target := if valid then d.value else 1;
    var warned := if valid then s.notices else s.notices + [InvalidDayNotice];
    var shown := NavigateTo(s.(currentDay := target, notices := warned), "day");
    var saved := SaveUserProgress(shown);
    saved.(notices := saved.notices + [LoadingNotice(target)])
  }

  /** Opening the same day again (as a grid click does, running both the
      item's own listener and the delegated handler) leaves the day, the
      view, the completed days and the slot as they were; it only adds two
      more writes and another loading notice. */
  lemma LoadDayContentTwice(s: State, day: Parsed)
    ensures var once := LoadDayContent(s, day);
      var twice := LoadDayContent(once, Num(once.currentDay));
      && twice.(writes := once.writes, notices := once.notices) == once
      && twice.writes == once.writes + 2
      && twice.notices == once.notices + [LoadingNotice(once.currentDay)]
  {
  }

  /** Number of notices of one kind. */
  function CountKind(ns: seq<Notice>, kind: NoticeKind): nat {
    if ns == [] then 0
    else CountKind(ns[..|ns| - 1], kind) + (if ns[|ns| - 1].kind == kind then 1 else 0)
  }

  /** Opening a day raises exactly one warning when the day is out of range
      and none otherwise. */
  lemma LoadDayContentWarnings(s: State, day: Parsed)
    ensures CountKind(LoadDayContent(s, day).notices, WarningNotice)
         == CountKind(s.notices, WarningNotice) + (if InRange(day) then 0 else 1)
  {
  }

  const CompletedNotice: Notice := Notice("Day marked as completed!", SuccessNotice)

  /** The `#mark-complete` click handler: record the current day once. */
  function MarkComplete(s: State): (r: State)
    ensures s.currentDay in s.completedDays ==> r == s
    ensures s.currentDay !in s.completedDays ==>
      && r.completedDays == s.completedDays + [s.currentDay]
      && r.slot == Save(r.Progress())
      && r.writes == s.writes + 1
      && r.notices == s.notices + [CompletedNotice]
      && r.currentDay == s.currentDay && r.view == s.view
  {
    if s.currentDay in s.completedDays then s
    else
      var saved := SaveUserProgress(s.(completedDays := s.completedDays + [s.currentDay]));
      saved.(notices := saved.notices + [CompletedNotice])
  }

  /** Marking a day a second time changes nothing, and performs no write. */
  lemma MarkCompleteIdempotent(s: State)
    ensures MarkComplete(MarkComplete(s)) == MarkComplete(s)
  {
  }

  /** Marking adds the current day to the set of completed days and
      nothing else. */
  lemma MarkCompleteAddsCurrentDay(s: State)
    ensures (set d | d in MarkComplete(s).completedDays) == (set d | d in s.completedDays) + {s.currentDay}
  {
  }

  /** No value occurs twice. */
  predicate NoDuplicates(xs: seq<int>) {
    forall i, j :: 0 <= i < j < |xs| ==> xs[i] != xs[j]
  }

  /** The state the page keeps as long as it only acts through the
      handlers: the current day is a day of the curriculum, and so is each
      completed day, each recorded once. */
  predicate Valid(s: State) {
    && 1 <= s.currentDay <= LastDay
    && NoDuplicates(s.completedDays)
    && forall i :: 0 <= i < |s.completedDays| ==> 1 <= s.completedDays[i] <= LastDay
  }

  /** The slot holds exactly the state's progress. */
  predicate Synced(s: State) {
    s.slot == Save(s.Progress())
  }

  /** The pages `renderApp` can show. */
  datatype Page = HomePage | ChallengesPage | DocsPage | LecturesPage | DayPage(day: int)

  /** `renderApp`'s switch on `currentView`: any view name it does not know
      renders the home page. */
  function Render(s: State): (p: Page)
    ensures p.DayPage? <==> s.view == "day"
    ensures p.DayPage? ==> p.day == s.currentDay
    ensures p == ChallengesPage <==> s.view == "challenges"
    ensures p == DocsPage <==> s.view == "docs"
    ensures p == LecturesPage <==> s.view == "lectures"
    ensures p == HomePage <==> s.view !in {"challenges", "docs", "lectures", "day"}
  {
    match s.view
    case "home" => HomePage
    case "challenges" => ChallengesPage
    case "docs" => DocsPage
    case "lectures" => LecturesPage
    case "day" => DayPage(s.currentDay)
    case _ => HomePage
  }

  /** Every page is one navigation away from any state: the views form a
      fully connected graph. */
  lemma NavigationReachesEveryPage(s: State)
    ensures Render(NavigateTo(s, "home")) == HomePage
    ensures Render(NavigateTo(s, "challenges")) == ChallengesPage
    ensures Render(NavigateTo(s, "docs")) == DocsPage
    ensures Render(NavigateTo(s, "lectures")) == LecturesPage
    ensures Render(NavigateTo(s, "day")) == DayPage(s.currentDay)
  {
  }

  /** The user gestures that reach the tracker: a navigation link (its
      `data-view`), a button carrying `data-day` text, and the mark-complete
      button. A click on a day grid item runs two handlers, the item's own
      listener and the delegated one, so it is the run
      `[DayButton(t), DayButton(t)]` (see `LoadDayContentTwice`). */
  datatype Action = NavLink(view: string) | DayButton(dataDay: string) | MarkCompleteButton

  /** The delegated click handler, one gesture at a time: only a day button
      moves the day, only the mark-complete button touches the completed
      days, and only a link changes the view to anything but the day view. */
  function Step(s: State, a: Action): (r: State)
    ensures !a.DayButton? ==> r.currentDay == s.currentDay
    ensures !a.MarkCompleteButton? ==> r.completedDays == s.completedDays
    ensures a.MarkCompleteButton? ==> s.completedDays <= r.completedDays
    ensures a.NavLink? ==> r.view == a.view
    ensures a.DayButton? ==> r.view == "day"
    ensures a.MarkCompleteButton? ==> r.view == s.view
  {
    match a
    case NavLink(view) => NavigateTo(s, view)
    case DayButton(dataDay) => LoadDayContent(s, ParseInt(dataDay))
    case MarkCompleteButton => MarkComplete(s)
  }

  /** A sequence of gestures, first to last. */
  function Run(s: State, actions: seq<Action>): State
    decreases |actions|
  {
    if actions == [] then s else Run(Step(s, actions[0]), actions[1..])
  }

  lemma StepPreservesValid(s: State, a: Action)
    requires Valid(s)
    ensures Valid(Step(s, a))
  {
  }

  /** Whatever the user does, the tracker stays valid: the current day in
      1..90, completed days in 1..90 and never recorded twice. */
  lemma {:induction false} RunPreservesValid(s: State, actions: seq<Action>)
    requires Valid(s)
    ensures Valid(Run(s, actions))
    decreases |actions|
  {
    if actions != [] {
      StepPreservesValid(s, actions[0]);
      RunPreservesValid(Step(s, actions[0]), actions[1..]);
    }
  }

  lemma StepPreservesSynced(s: State, a: Action)
    requires Synced(s)
    ensures Synced(Step(s, a))
  {
  }

  /** Once the slot matches the state, every gesture keeps it matching:
      each change of the day or of the completed days is saved. */
  lemma {:induction false} RunPreservesSynced(s: State, actions: seq<Action>)
    requires Synced(s)
    ensures Synced(Run(s, actions))
    decreases |actions|
  {
    if actions != [] {
      StepPreservesSynced(s, actions[0]);
      RunPreservesSynced(Step(s, actions[0]), actions[1..]);
    }
  }

  /** Reloading the page restores the progress of a valid, saved state:
      the fresh page starts from the initial values and loads the same day
      and the same completed days back. */
  lemma ReloadRestores(s: State)
    requires Valid(s) && Synced(s)
    ensures LoadUserProgress(Init(s.slot)).Success?
    ensures LoadUserProgress(Init(s.slot)).value.currentDay == s.currentDay
    ensures LoadUserProgress(Init(s.slot)).value.completedDays == s.completedDays
  {
  }

  /** Opening a day and then reloading the page comes back to the opened
      day (day 1 for a rejected one) with the same completed days. */
  lemma OpenDayThenReload(s: State, day: Parsed)
    ensures var r := LoadDayContent(s, day);
      && LoadUserProgress(Init(r.slot)).Success?
      && LoadUserProgress(Init(r.slot)).value.currentDay == (if InRange(day) then day.value else 1)
      && LoadUserProgress(Init(r.slot)).value.completedDays == s.completedDays
  {
    var r := LoadDayContent(s, day);
    SaveLoadRoundTrip(r.Progress(), Init(r.slot).Progress());
  }

  /** A button whose `data-day` text is a day of the curriculum opens that
      day, with only the loading notice. */
  lemma OpenDayByText(s: State, day: int)
    requires 1 <= day <= LastDay
    ensures Step(s, DayButton(IntToString(day))).currentDay == day
    ensures Step(s, DayButton(IntToString(day))).notices == s.notices + [LoadingNotice(day)]
  {
    var text := IntToString(day);
    ParseIntOfPrinted(day);
    assert InRange(ParseInt(text));
    var r := LoadDayContent(s, ParseInt(text));
    assert Step(s, DayButton(text)) == r;
  }

  /** A previous/next button carries its target day as text; clicking it
      opens exactly that day, without a warning. */
  lemma DayLinksOpenTheirDay(s: State, target: int)
    requires Valid(s)
    requires Links(s.currentDay).previous == Wrappers.Some(target) || Links(s.currentDay).next == Wrappers.Some(target)
    ensures Step(s, DayButton(IntToString(target))).currentDay == target
    ensures Step(s, DayButton(IntToString(target))).notices == s.notices + [LoadingNotice(target)]
  {
    LinksStayInRange(s.currentDay);
    OpenDayByText(s, target);
  }
}

=== FILE: wrappers.dfy ===
/** Option and Result types shared by the tracker model. */
module Wrappers {

  /** A value that may be absent: an unset storage key, a missing JSON field,
      a navigation link that is not offered. */
  datatype Option<+T> = None | Some(value: T) {

    /** The held value, or `default` when there is none: JavaScript's `x || default`
        for a field that may be missing. */
    function GetOr(default: T): T {
      match this
      case Some(v) => v
      case None => default
    }
  }

  /** The outcome of an operation that can throw. */
  datatype Result<+R, +E> = Success(value: R) | Failure(error: E)
}
